=== FILE: README.md ===
# EncryptedSharedPreferences in Dafny

A model of `EncryptedSharedPreferences`, an Android helper that stores strings
in a private `SharedPreferences` file encrypted with AES-128. The AES key is
created lazily on first use and is itself kept, Base64-encoded, in the same
preferences file under the reserved name `PRIVATE_KEY`.

The preferences file is an immutable `map<string, Pref>` (`Prefs.Store`),
where a `Pref` is a string or a 32-bit int; the int case exists because key
creation also writes `"UserAge" = 22` with `putInt`. Each operation of the
class is a pure transition returning the store after the call and the
call's result (`Prefs.Step`):

- `EncryptedPrefs.GetKey`, `Encrypt`, `Decrypt`: the private helpers
  `getKey`, `encrypt`, `decrypt`, whose exceptions are `Result` errors
  (`Prefs.Failure`).
- `EncryptedPrefs.PutString`, `GetString`, `RemoveString`: the public
  operations. `putString` and `getString` catch every exception, so a failed
  put writes no caller entry (any key and "UserAge" that key retrieval
  created remain) and a failed get returns `None` (Java's null).
  `removeString` catches nothing; in the model it cannot fail.

The foreign libraries are not modelled. `android.util.Base64`, the UTF-8
conversion of `String` and `javax.crypto.Cipher` are function values in a
`Crypto.Library` record that every operation takes as a parameter. The only
facts the proofs use about them are the round-trip laws in `Crypto.Lawful`:

- Base64 decoding inverts encoding.
- UTF-8 decoding inverts encoding.
- Decrypting under the key that encrypted gives the plaintext back.
- A 128-bit key is always accepted.

`ToyCrypto.Toy` is a concrete library proved lawful (`ToyCrypto.ToyIsLawful`),
so that precondition can be met. The key `KeyGenerator` would produce is an
oracle parameter `draw` of each call. It is a 16-byte value, or `None` when
no generator is available, and is consulted only when the key slot is empty.

Where the code's behaviour differs from what it evidently intends, the
model follows the code:

- A key slot out of callers' reach is the evident intent of a reserved
  name. The code keeps key and data in one map with no guard (see Findings).
- Key creation evidently should write only the key. The code also writes
  `"UserAge" = 22` (see Findings).
- A corrupt stored key is not reported as such. The exception from
  `Base64.decode` or `SecretKeySpec` is caught by `putString`/`getString`,
  so the put is skipped and the get returns null.
- Decryption never fails on bytes that are not valid UTF-8, since
  `new String(bytes, "UTF-8")` never throws, so `utf8Decode` is total.

`SeparatedPrefs` is the corrected store used by the Findings below. It has
the same operations over a `Vault` whose key slot is a separate field, and
its key creation writes nothing else.

## Model

| member | source | states |
|---|---|---|
| Prefs.ReadString | app/src/main/java/com/og/encryptedsharedpreferences/EncryptedSharedPreferences.java:59 | Android's `getString(name, null)`: `Ok(None)` exactly when the name is absent; a `ClassCast` error exactly when the entry is an int; otherwise the stored string |
| CipherCodec.DecodeKey | app/src/main/java/com/og/encryptedsharedpreferences/EncryptedSharedPreferences.java:149-151 | the stored key text yields key bytes exactly when it is valid Base64 of a non-empty byte string, and the bytes are the Base64 decoding |
| CipherCodec.EncryptWith | app/src/main/java/com/og/encryptedsharedpreferences/EncryptedSharedPreferences.java:99-102 | encryption succeeds exactly when the cipher accepts the key and the UTF-8 bytes of the plaintext, and yields the cipher's output |
| CipherCodec.DecryptWith | app/src/main/java/com/og/encryptedsharedpreferences/EncryptedSharedPreferences.java:114-117 | decryption succeeds exactly when the cipher accepts key and ciphertext, and yields the UTF-8 decoding of the recovered bytes |
| CipherCodec.StoredKeyRoundTrip | app/src/main/java/com/og/encryptedsharedpreferences/EncryptedSharedPreferences.java:142-151 | a key written to the slot in Base64 form is read back as the same bytes |
| CipherCodec.CipherRoundTrip | app/src/main/java/com/og/encryptedsharedpreferences/EncryptedSharedPreferences.java:97-117 | a 128-bit key always encrypts, and decrypting under the encrypting key returns the original string |
| EncryptedPrefs.GetKey | app/src/main/java/com/og/encryptedsharedpreferences/EncryptedSharedPreferences.java:127-152 | a present slot is only read and its decoding returned (an int slot fails). An absent slot with no generator writes nothing and fails. Otherwise it returns the generated key, stores its Base64 under PRIVATE_KEY and UserAge=22, and changes no other entry. A returned key is never empty |
| EncryptedPrefs.Encrypt | app/src/main/java/com/og/encryptedsharedpreferences/EncryptedSharedPreferences.java:97-103 | the only store effect is key retrieval's; succeeds exactly when a key is obtained and the cipher accepts it, returning the cipher's output under that key |
| EncryptedPrefs.Decrypt | app/src/main/java/com/og/encryptedsharedpreferences/EncryptedSharedPreferences.java:112-118 | the only store effect is key retrieval's; succeeds exactly when a key is obtained and the cipher decrypts, returning the UTF-8 decoding of the plaintext |
| EncryptedPrefs.PutString | app/src/main/java/com/og/encryptedsharedpreferences/EncryptedSharedPreferences.java:77-88 | beyond key retrieval's writes only the named entry changes, and only that entry once a key exists; on success it holds the Base64 ciphertext; a failed encryption writes no caller entry and nothing escapes |
| EncryptedPrefs.GetString | app/src/main/java/com/og/encryptedsharedpreferences/EncryptedSharedPreferences.java:55-69 | an absent name returns null and leaves the store unchanged (no key is created); with a key present nothing is written; any other write is key creation; a value is returned exactly when the entry is a string, is valid Base64 and decrypts, and it is the decryption of the decoded entry |
| EncryptedPrefs.RemoveString | app/src/main/java/com/og/encryptedsharedpreferences/EncryptedSharedPreferences.java:43-47 | deletes exactly the named entry, every other entry unchanged; removing an absent name changes nothing |
| EncryptedPrefsProperties.GetKeyIdempotent | app/src/main/java/com/og/encryptedsharedpreferences/EncryptedSharedPreferences.java:131-151 | after a successful getKey, a second getKey returns the same key, writes nothing and ignores the generator |
| EncryptedPrefsProperties.KeyPersists | app/src/main/java/com/og/encryptedsharedpreferences/EncryptedSharedPreferences.java:131-151 | once a getKey has succeeded, after any calls that do not name PRIVATE_KEY the slot is still filled and the next getKey returns the same key, writes nothing and ignores the generator |
| EncryptedPrefsProperties.KeyCreatedOnlyWhenSlotEmpty | app/src/main/java/com/og/encryptedsharedpreferences/EncryptedSharedPreferences.java:131-147 | getKey changes the store if and only if the slot is empty and a key can be generated |
| EncryptedPrefsProperties.EncryptSucceedsWithKey | app/src/main/java/com/og/encryptedsharedpreferences/EncryptedSharedPreferences.java:97-102 | encryption cannot fail once a 128-bit key has been obtained |
| EncryptedPrefsProperties.FirstPutSucceeds | app/src/main/java/com/og/encryptedsharedpreferences/EncryptedSharedPreferences.java:136-139 | on a store without a key, encryption succeeds whenever a key can be generated |
| EncryptedPrefsProperties.PutGetRoundTrip | app/src/main/java/com/og/encryptedsharedpreferences/EncryptedSharedPreferences.java:55-88 | for a name other than PRIVATE_KEY, getString after a successful putString of v returns v and writes nothing |
| EncryptedPrefsProperties.CorruptEntryReadsAsNull | app/src/main/java/com/og/encryptedsharedpreferences/EncryptedSharedPreferences.java:59-68 | an int entry or a non-Base64 entry reads as null, the store is unchanged and no key is created |
| EncryptedPrefsProperties.UndecryptableEntryReadsAsNull | app/src/main/java/com/og/encryptedsharedpreferences/EncryptedSharedPreferences.java:63-68 | an entry whose key retrieval or decryption fails reads as null |
| EncryptedPrefsProperties.ReadCreatesMissingKey | app/src/main/java/com/og/encryptedsharedpreferences/EncryptedSharedPreferences.java:112-113 | reading an existing Base64 entry while the key slot is empty creates the key and UserAge as a side effect, changing no other entry |
| EncryptedPrefsProperties.GetAfterRemove | app/src/main/java/com/og/encryptedsharedpreferences/EncryptedSharedPreferences.java:43-61 | after removeString(name), getString(name) returns null and writes nothing |
| EncryptedPrefsProperties.ReservedPutReplacesKey | app/src/main/java/com/og/encryptedsharedpreferences/EncryptedSharedPreferences.java:83 | a successful putString("PRIVATE_KEY", v) makes the next getKey return the ciphertext of v (or fail if it is empty) instead of the key |
| EncryptedPrefsProperties.ReservedRemoveDropsKey | app/src/main/java/com/og/encryptedsharedpreferences/EncryptedSharedPreferences.java:43-47 | removeString("PRIVATE_KEY") deletes the key, so the next getKey generates a fresh one |
| EncryptedPrefsProperties.EntrySurvivesOtherCalls | app/src/main/java/com/og/encryptedsharedpreferences/EncryptedSharedPreferences.java:43-88 | once a key is stored, any calls naming neither the key slot nor `name` leave both entries unchanged |
| EncryptedPrefsProperties.GetStringIsLocal | app/src/main/java/com/og/encryptedsharedpreferences/EncryptedSharedPreferences.java:55-69 | once a key exists, getString depends only on the named entry and the key slot |
| EncryptedPrefsProperties.RoundTripSurvivesOtherCalls | app/src/main/java/com/og/encryptedsharedpreferences/EncryptedSharedPreferences.java:43-88 | a value put under a non-reserved name is still read back after any calls touching neither that name nor the key slot |
| EncryptedPrefsProperties.TokenScenario | app/src/main/java/com/og/encryptedsharedpreferences/EncryptedSharedPreferences.java:43-88 | on an empty store, put("token", "abc123") then get returns "abc123"; after remove it returns null |
| SeparatedPrefs.VaultGetKey | app/src/main/java/com/og/encryptedsharedpreferences/EncryptedSharedPreferences.java:127-152 | corrected getKey: never touches caller data; a present key is only read; an absent one is generated and stored |
| SeparatedPrefs.VaultEncrypt | app/src/main/java/com/og/encryptedsharedpreferences/EncryptedSharedPreferences.java:97-103 | corrected encrypt: only key retrieval's effect; succeeds exactly when a key is obtained and the cipher accepts it, returning the cipher output under that key |
| SeparatedPrefs.VaultPutString | app/src/main/java/com/og/encryptedsharedpreferences/EncryptedSharedPreferences.java:77-88 | corrected putString: changes only the named caller entry and never a stored key |
| SeparatedPrefs.VaultGetString | app/src/main/java/com/og/encryptedsharedpreferences/EncryptedSharedPreferences.java:55-69 | corrected getString: never changes caller data; absent names read as null without effect; a value is returned exactly when the entry is a string, is valid Base64, a key is obtained and decryption succeeds, and it is that decryption |
| SeparatedPrefs.VaultRemoveString | app/src/main/java/com/og/encryptedsharedpreferences/EncryptedSharedPreferences.java:43-47 | corrected removeString: deletes exactly the named caller entry and never the key |
| SeparatedPrefs.VaultPutGetRoundTrip | app/src/main/java/com/og/encryptedsharedpreferences/EncryptedSharedPreferences.java:55-88 | corrected store: the put/get round trip holds for every name, PRIVATE_KEY included |
| SeparatedPrefs.VaultKeyNeverClobbered | app/src/main/java/com/og/encryptedsharedpreferences/EncryptedSharedPreferences.java:22-23 | corrected store: once stored, the key survives every sequence of caller calls |
| SeparatedPrefs.VaultEntrySurvivesOtherCalls | app/src/main/java/com/og/encryptedsharedpreferences/EncryptedSharedPreferences.java:43-88 | corrected store: calls on other names leave a caller entry unchanged |
| SeparatedPrefs.VaultRoundTripSurvivesOtherCalls | app/src/main/java/com/og/encryptedsharedpreferences/EncryptedSharedPreferences.java:43-88 | corrected store: a value put under any name is read back after any calls on other names |
| Findings.ReservedPutRekeysEntries | app/src/main/java/com/og/encryptedsharedpreferences/EncryptedSharedPreferences.java:83 | after putString("PRIVATE_KEY", b), an earlier entry is decrypted under the ciphertext of b instead of its own key |
| Findings.ReservedPutLosesEntries | app/src/main/java/com/og/encryptedsharedpreferences/EncryptedSharedPreferences.java:83 | concretely, with the toy library `ToyCrypto.Toy`, whose decryption rejects a wrong key: "token" reads "abc" before putString("PRIVATE_KEY", "abcd") and null after |
| Findings.SeparatedReservedPutKeepsEntries | app/src/main/java/com/og/encryptedsharedpreferences/EncryptedSharedPreferences.java:83 | corrected store: the same calls leave "token" readable as "abc" |
| Findings.KeyRecreationClobbersUserAge | app/src/main/java/com/og/encryptedsharedpreferences/EncryptedSharedPreferences.java:144 | a caller's "UserAge" entry reads "30", but after removeString("PRIVATE_KEY") and a put that recreates the key it reads null |
| Findings.SeparatedKeepsUserAge | app/src/main/java/com/og/encryptedsharedpreferences/EncryptedSharedPreferences.java:144 | corrected store: the same calls leave "UserAge" reading "30", and a key recreated over data already holding "UserAge" leaves that entry unchanged |

## Findings

| source | as written | input that shows it | evidently intended | confidence | as-written member | corrected member |
|---|---|---|---|---|---|---|
| app/src/main/java/com/og/encryptedsharedpreferences/EncryptedSharedPreferences.java:83 | a caller name equal to PRIVATE_KEY writes over the stored key, so entries written under the old key become unreadable | putString("token", "abc"), then putString("PRIVATE_KEY", "abcd"), then getString("token") returns null (with AES, a garbled string when the wrong-key padding check happens to pass) | the key slot is out of reach of caller names | high, not executed | Findings.ReservedPutRekeysEntries, Findings.ReservedPutLosesEntries | Findings.SeparatedReservedPutKeepsEntries |
| app/src/main/java/com/og/encryptedsharedpreferences/EncryptedSharedPreferences.java:144 | every key creation also writes the int "UserAge" = 22, replacing a caller's own "UserAge" entry | putString("UserAge", "30"), removeString("PRIVATE_KEY"), putString("token", "abc"), then getString("UserAge") returns null | key creation writes only the key | medium, not executed | Findings.KeyRecreationClobbersUserAge | Findings.SeparatedKeepsUserAge |

## Left out

- AES, Base64 and UTF-8 algorithms: foreign library code. They appear only through the laws in `Crypto.Lawful`, plus `None` results for the exceptions they can throw. `Cipher.getInstance("AES")` mode and padding are not modelled.
- `KeyGenerator` randomness and the discarded first `generateKey()`: the generated key is the oracle parameter `draw`.
- `Context`, the preferences file itself, `commit()` durability and `Log.e`: I/O and logging. The map and the "no write / null" results capture their effect.
- Concurrent first callers of `getKey` racing to create two keys: the model is sequential.
- Java's signed `byte`: bytes are octets 0..255, since only the bit pattern reaches the libraries.
- Java null arguments: `string` cannot be null, so `putString(name, null)`, `getString(null)` and `removeString(null)` are not modelled. In Java, `putString(name, null)` first runs `getKey`, which may write the key and "UserAge". Then `getBytes` throws a NullPointerException, which is caught, so no caller entry is written.
- Unpaired UTF-16 surrogates: a Dafny `string` holds only Unicode scalar values, while a Java `String` may hold lone surrogates, which `getBytes("UTF-8")` replaces with '?'. The round-trip lemmas (`EncryptedPrefsProperties.PutGetRoundTrip`, `RoundTripSurvivesOtherCalls`, `TokenScenario`) are not claimed for strings with lone surrogates.

=== FILE: calls.dfy ===
/** A caller's call on a store: one of the three public operations, with the
    key the generator would produce if the call has to create one. Both the
    store as written and the separated store replay sequences of these. */
module Calls {
  import opened Wrappers
  import opened Crypto

  datatype Call =
    | Put(name: string, value: string, draw: Option<GeneratedKey>)
    | Get(name: string, draw: Option<GeneratedKey>)
    | Remove(name: string)
}

=== FILE: codec.dfy ===
/** The key-parameterised half of the store: turning a stored key text back
    into key bytes, and the encrypt/decrypt transforms under a given key. */
module CipherCodec {
  import opened Wrappers
  import opened Crypto
  import opened Prefs

  /** Recovers the key bytes from the text in the key slot: `Base64.decode`
      and then `new SecretKeySpec(bytes, 0, bytes.length, "AES")`, which
      rejects an empty key. */
  function DecodeKey(lib: Library, text: string): (r: Result<Bytes, Failure>)
    ensures r.Ok? <==> lib.base64Decode(text).Some? && |lib.base64Decode(text).value| > 0
    ensures r.Ok? ==> lib.base64Decode(text) == Some(r.value)
  {
    match lib.base64Decode(text)
    case None => Err(BadBase64)
    case Some(bytes) => if |bytes| == 0 then Err(EmptyKey) else Ok(bytes)
  }

  /** `encrypt` once the key is known: UTF-8 bytes of the plaintext, then AES. */
  function EncryptWith(lib: Library, key: Bytes, clear: string): (r: Result<Bytes, Failure>)
    ensures r.Ok? <==> lib.aesEncrypt(key, lib.utf8Encode(clear)).Some?
    ensures r.Ok? ==> lib.aesEncrypt(key, lib.utf8Encode(clear)) == Some(r.value)
  {
    match lib.aesEncrypt(key, lib.utf8Encode(clear))
    case None => Err(CipherFailure)
    case Some(ct) => Ok(ct)
  }

  /** `decrypt` once the key is known: AES, then the UTF-8 decoding. */
  function DecryptWith(lib: Library, key: Bytes, ct: Bytes): (r: Result<string, Failure>)
    ensures r.Ok? <==> lib.aesDecrypt(key, ct).Some?
    ensures r.Ok? ==> r.value == lib.utf8Decode(lib.aesDecrypt(key, ct).value)
  {
    match lib.aesDecrypt(key, ct)
    case None => Err(CipherFailure)
    case Some(p) => Ok(lib.utf8Decode(p))
  }

  /** A key written to the slot in encoded form decodes to itself. */
  lemma StoredKeyRoundTrip(lib: Library, key: Bytes)
    requires Lawful(lib)
    requires |key| > 0
    ensures DecodeKey(lib, lib.base64Encode(key)) == Ok(key)
  {
  }

  /** Decrypting under the key that encrypted recovers the plaintext, and a
      128-bit key always encrypts. */
  lemma CipherRoundTrip(lib: Library, key: Bytes, clear: string)
    requires Lawful(lib)
    ensures |key| == KeyLength ==> EncryptWith(lib, key, clear).Ok?
    ensures EncryptWith(lib, key, clear).Ok? ==>
              DecryptWith(lib, key, EncryptWith(lib, key, clear).value) == Ok(clear)
  {
  }
}

=== FILE: crypto.dfy ===
/** The foreign libraries the store delegates to: `android.util.Base64`, the
    UTF-8 charset conversion of `java.lang.String`, and the AES `Cipher`.
    Their algorithms are not modelled; each is a function value of a
    `Library`, and the only facts used about them are the round-trip laws
    collected in `Lawful`. */
module Crypto {
  import opened Wrappers

  /** One octet. Java's `byte` is signed, but only its bit pattern matters here. */
  newtype byte = x: int | 0 <= x < 256

  type Bytes = seq<byte>

  /** `KeyGenerator.init(128)`: generated AES keys are 128 bits long. */
  const KeyLength: nat := 16

  type GeneratedKey = k: Bytes | |k| == KeyLength witness seq(16, _ => 0 as byte)

  datatype Library = Library(
    /** `Base64.encodeToString(bytes, DEFAULT)`: never fails. */
    base64Encode: Bytes -> string,
    /** `Base64.decode(text, DEFAULT)`: `None` for text that is not Base64. */
    base64Decode: string -> Option<Bytes>,
    /** `String.getBytes("UTF-8")`: never fails. */
    utf8Encode: string -> Bytes,
    /** `new String(bytes, "UTF-8")`: never fails (malformed input is replaced). */
    utf8Decode: Bytes -> string,
    /** `Cipher` in `ENCRYPT_MODE` under a key: `None` when the cipher throws. */
    aesEncrypt: (Bytes, Bytes) -> Option<Bytes>,
    /** `Cipher` in `DECRYPT_MODE` under a key: `None` when the cipher throws. */
    aesDecrypt: (Bytes, Bytes) -> Option<Bytes>)

  /** The laws the store relies on: each decoder inverts its encoder, decrypting
      under the key that encrypted gives the plaintext back, and a 128-bit key
      is always accepted by the cipher. */
  ghost predicate Lawful(lib: Library) {
    && (forall b :: lib.base64Decode(lib.base64Encode(b)) == Some(b))
    && (forall s :: lib.utf8Decode(lib.utf8Encode(s)) == s)
    && (forall k, p :: lib.aesEncrypt(k, p).Some? ==>
          lib.aesDecrypt(k, lib.aesEncrypt(k, p).value) == Some(p))
    && (forall k, p :: |k| == KeyLength ==> lib.aesEncrypt(k, p).Some?)
  }
}

=== FILE: encrypted_prefs.dfy ===
/** The class `EncryptedSharedPreferences`: a lazily created AES key kept in
    the reserved entry `PRIVATE_KEY` of the same preferences file as the
    encrypted caller entries. Every operation is a pure transition from the
    store before the call to the store after it.

    `draw` is the key `KeyGenerator` would produce if this call generated one
    (`None`: the generator is unavailable); it is consulted only when the key
    slot is empty. */
module EncryptedPrefs {
  import opened Wrappers
  import opened Crypto
  import opened Prefs
  import opened CipherCodec

  /** The reserved name of the key slot. */
  const PrivateKeyName := "PRIVATE_KEY"
  /** The unrelated entry written whenever a key is generated. */
  const UserAgeName := "UserAge"
  const UserAgeValue: int32 := 22

  /** `getKey`: returns the stored key, or generates, stores and returns one
      when the slot is empty. */
  function GetKey(st: Store, lib: Library, draw: Option<GeneratedKey>): (r: Step<Store, Result<Bytes, Failure>>)
    // a present slot is only read
    ensures PrivateKeyName in st ==> r.state == st
    ensures PrivateKeyName in st && st[PrivateKeyName].StringPref? ==>
              r.out == DecodeKey(lib, st[PrivateKeyName].s)
    ensures PrivateKeyName in st && st[PrivateKeyName].IntPref? ==> r.out == Err(ClassCast)
    // an empty slot without a generator: nothing is written
    ensures PrivateKeyName !in st && draw.None? ==> r.state == st && r.out == Err(NoSuchAlgorithm)
    // an empty slot with a generator: the key and UserAge are written, nothing else
    ensures PrivateKeyName !in st && draw.Some? ==>
              && r.out == Ok(draw.value)
              && r.state.Keys == st.Keys + {PrivateKeyName, UserAgeName}
              && r.state[PrivateKeyName] == StringPref(lib.base64Encode(draw.value))
              && r.state[UserAgeName] == IntPref(UserAgeValue)
              && AgreeExcept(st, r.state, {PrivateKeyName, UserAgeName})
    ensures r.out.Ok? ==> |r.out.value| > 0
  {
    match ReadString(st, PrivateKeyName)
    case Err(e) => Step(st, Err(e))
    case Ok(None) =>
      (match draw
       case None => Step(st, Err(NoSuchAlgorithm))
       case Some(key) =>
         var written := st[PrivateKeyName := StringPref(lib.base64Encode(key))]
                          [UserAgeName := IntPref(UserAgeValue)];
         Step(written, Ok(key)))
    case Ok(Some(text)) => Step(st, DecodeKey(lib, text))
  }

  /** `encrypt`: fetches (possibly creating) the key, then encrypts under it. */
  function Encrypt(st: Store, lib: Library, draw: Option<GeneratedKey>, clear: string): (r: Step<Store, Result<Bytes, Failure>>)
    ensures r.state == GetKey(st, lib, draw).state
    ensures r.out.Ok? <==>
              GetKey(st, lib, draw).out.Ok? &&
              lib.aesEncrypt(GetKey(st, lib, draw).out.value, lib.utf8Encode(clear)).Some?
    ensures r.out.Ok? ==>
              lib.aesEncrypt(GetKey(st, lib, draw).out.value, lib.utf8Encode(clear)) == Some(r.out.value)
  {
    var k := GetKey(st, lib, draw);
    match k.out
    case Err(e) => Step(k.state, Err(e))
    case Ok(key) => Step(k.state, EncryptWith(lib, key, clear))
  }

  /** `decrypt`: fetches (possibly creating) the key, then decrypts under it. */
  function Decrypt(st: Store, lib: Library, draw: Option<GeneratedKey>, ct: Bytes): (r: Step<Store, Result<string, Failure>>)
    ensures r.state == GetKey(st, lib, draw).state
    ensures r.out.Ok? <==>
              GetKey(st, lib, draw).out.Ok? && lib.aesDecrypt(GetKey(st, lib, draw).out.value, ct).Some?
    ensures r.out.Ok? ==>
              r.out.value == lib.utf8Decode(lib.aesDecrypt(GetKey(st, lib, draw).out.value, ct).value)
  {
    var k := GetKey(st, lib, draw);
    match k.out
    case Err(e) => Step(k.state, Err(e))
    case Ok(key) => Step(k.state, DecryptWith(lib, key, ct))
  }

  /** `putString`: stores the Base64 text of the ciphertext under `name`.
      Any exception is caught and logged, so a failure simply writes no entry. */
  function PutString(st: Store, lib: Library, draw: Option<GeneratedKey>, name: string, value: string): (r: Store)
    // beyond what key retrieval wrote, at most the named entry changes
    ensures AgreeExcept(GetKey(st, lib, draw).state, r, {name})
    // with a key already present, only the named entry can change
    ensures PrivateKeyName in st ==> AgreeExcept(st, r, {name})
    ensures Encrypt(st, lib, draw, value).out.Ok? ==>
              name in r && r[name] == StringPref(lib.base64Encode(Encrypt(st, lib, draw, value).out.value))
    // a failed encryption writes no caller entry
    ensures Encrypt(st, lib, draw, value).out.Err? ==> r == GetKey(st, lib, draw).state
  {
    var e := Encrypt(st, lib, draw, value);
    match e.out
    case Err(_) => e.state
    case Ok(ct) => e.state[name := StringPref(lib.base64Encode(ct))]
  }

  /** `getString`: null for a missing entry (without touching the key); else
      Base64-decodes and decrypts. Any exception is caught and yields null. */
  function GetString(st: Store, lib: Library, draw: Option<GeneratedKey>, name: string): (r: Step<Store, Option<string>>)
    ensures name !in st ==> r == Step(st, None)
    ensures PrivateKeyName in st ==> r.state == st
    ensures r.state == st || (PrivateKeyName !in st && r.state == GetKey(st, lib, draw).state)
    // a value comes back exactly when the entry is a string, is Base64, and decrypts
    ensures r.out.Some? <==>
              && name in st && st[name].StringPref?
              && lib.base64Decode(st[name].s).Some?
              && Decrypt(st, lib, draw, lib.base64Decode(st[name].s).value).out.Ok?
    ensures r.out.Some? ==>
              r.out.value == Decrypt(st, lib, draw, lib.base64Decode(st[name].s).value).out.value
  {
    match ReadString(st, name)
    case Err(_) => Step(st, None)
    case Ok(None) => Step(st, None)
    case Ok(Some(text)) =>
      (match lib.base64Decode(text)
       case None => Step(st, None)
       case Some(ct) =>
         var d := Decrypt(st, lib, draw, ct);
         Step(d.state, d.out.ToOption()))
  }

  /** `removeString`: deletes the named entry, whatever it is. */
  function RemoveString(st: Store, name: string): (r: Store)
    ensures r.Keys == st.Keys - {name}
    ensures forall n :: n in r ==> r[n] == st[n]
    ensures name !in st ==> r == st
  {
    st - {name}
  }
}

=== FILE: findings.dfy ===
/** Two defects of the original store, each shown on a sequence of caller
    calls, beside the same calls on the separated store. */
module Findings {
  import opened Wrappers
  import opened Crypto
  import opened Prefs
  import opened CipherCodec
  import opened EncryptedPrefs
  import opened SeparatedPrefs
  import opened ToyCrypto

  const ZeroKey: GeneratedKey := seq(16, _ => 0 as byte)

  /** As written, for any lawful library: after `putString("PRIVATE_KEY", b)`
      an entry put earlier is decrypted under the ciphertext of `b` instead of
      under the key it was written with. */
  lemma ReservedPutRekeysEntries(lib: Library, key: GeneratedKey, a: string, b: string)
    requires Lawful(lib)
    ensures var st1 := PutString(map[], lib, Some(key), "token", a);
            var st2 := PutString(st1, lib, None, PrivateKeyName, b);
            var tokenCt := lib.aesEncrypt(key, lib.utf8Encode(a)).value;
            var newKey := lib.aesEncrypt(key, lib.utf8Encode(b)).value;
            && GetString(st1, lib, None, "token").out == Some(a)
            && (|newKey| > 0 ==>
                  GetString(st2, lib, None, "token").out == DecryptWith(lib, newKey, tokenCt).ToOption())
  {
  }

  /** As written, concretely: `putString("PRIVATE_KEY", "abcd")` overwrites
      the key, and the entry "token" written before it can no longer be read. */
  lemma ReservedPutLosesEntries()
    ensures var st1 := PutString(map[], Toy(), Some(ZeroKey), "token", "abc");
            var st2 := PutString(st1, Toy(), None, PrivateKeyName, "abcd");
            && GetString(st1, Toy(), None, "token").out == Some("abc")
            && GetString(st2, Toy(), None, "token").out == None
  {
    ToyIsLawful();
    ReservedPutRekeysEntries(Toy(), ZeroKey, "abc", "abcd");
    var tokenCt := ZeroKey + Utf8("abc");
    var newKey := ZeroKey + Utf8("abcd");
    assert |tokenCt| == 25 && |newKey| == 28;
    UnsealRejectsLongerKey(newKey, tokenCt);
  }

  /** Corrected: on the separated store the same calls keep the entry
      readable, for every lawful library and every generated key. */
  lemma SeparatedReservedPutKeepsEntries(lib: Library, key: GeneratedKey)
    requires Lawful(lib)
    ensures var v1 := VaultPutString(Vault(None, map[]), lib, Some(key), "token", "abc");
            var v2 := VaultPutString(v1, lib, None, PrivateKeyName, "abcd");
            VaultGetString(v2, lib, None, "token").out == Some("abc")
  {
  }

  /** As written: when the key has to be created again, the incidental
      `UserAge = 22` write replaces a caller's own "UserAge" entry, which then
      reads as null; for every lawful library and generated keys. */
  lemma KeyRecreationClobbersUserAge(lib: Library, key1: GeneratedKey, key2: GeneratedKey)
    requires Lawful(lib)
    ensures var st1 := PutString(map[], lib, Some(key1), UserAgeName, "30");
            var st2 := RemoveString(st1, PrivateKeyName);
            var st3 := PutString(st2, lib, Some(key2), "token", "abc");
            && GetString(st1, lib, None, UserAgeName).out == Some("30")
            && GetString(st3, lib, None, UserAgeName).out == None
  {
  }

  /** Corrected: on the separated store the same calls leave "UserAge" alone,
      for every lawful library and generated keys: removing "PRIVATE_KEY" is an
      ordinary removal. And when a key does have to be created again, over data
      that already holds "UserAge", the entry is left exactly as it was. */
  lemma SeparatedKeepsUserAge(lib: Library, key1: GeneratedKey, key2: GeneratedKey)
    requires Lawful(lib)
    ensures var v1 := VaultPutString(Vault(None, map[]), lib, Some(key1), UserAgeName, "30");
            var v2 := VaultRemoveString(v1, PrivateKeyName);
            var v3 := VaultPutString(v2, lib, Some(key2), "token", "abc");
            VaultGetString(v3, lib, None, UserAgeName).out == Some("30")
    ensures var v1 := VaultPutString(Vault(None, map[]), lib, Some(key1), UserAgeName, "30");
            var keyless := v1.(keySlot := None);
            var recreated := VaultPutString(keyless, lib, Some(key2), "token", "abc");
            && VaultGetKey(keyless, lib, Some(key2)).state.keySlot.Some?
            && UserAgeName in recreated.data
            && recreated.data[UserAgeName] == v1.data[UserAgeName]
  {
  }
}

=== FILE: prefs.dfy ===
/** The backing `SharedPreferences` file, seen as an immutable map from names
    to typed values, together with the part of its API the store uses. */
module Prefs {
  import opened Wrappers

  /** Java's 32-bit `int`, the type `putInt` stores. */
  newtype int32 = x: int | -0x8000_0000 <= x < 0x8000_0000

  datatype Pref = StringPref(s: string) | IntPref(i: int32)

  type Store = map<string, Pref>

  /** The exceptions the store's public operations catch. */
  datatype Failure =
    | ClassCast        // `getString` on an entry that holds an int
    | BadBase64        // `Base64.decode` rejects the stored text
    | EmptyKey         // `SecretKeySpec` rejects a zero-length key
    | NoSuchAlgorithm  // `KeyGenerator.getInstance("AES")` fails
    | CipherFailure    // `Cipher.getInstance`, `init` or `doFinal` fails

  /** A transition: the store after the call, and what the call returned. */
  datatype Step<S, T> = Step(state: S, out: T)

  /** `SharedPreferences.getString(name, null)`: null for a missing entry, a
      `ClassCastException` for an entry of another type. */
  function ReadString(st: Store, name: string): (r: Result<Option<string>, Failure>)
    ensures r == Ok(None) <==> name !in st
    ensures r.Err? <==> name in st && st[name].IntPref?
    ensures r.Err? ==> r.error == ClassCast
    ensures r.Ok? && r.value.Some? ==> st[name] == StringPref(r.value.value)
  {
    if name !in st then Ok(None)
    else match st[name]
      case StringPref(s) => Ok(Some(s))
      case IntPref(_) => Err(ClassCast)
  }

  /** `a` and `b` hold the same entries at every name outside `names`. */
  ghost predicate AgreeExcept(a: Store, b: Store, names: set<string>) {
    forall n :: n !in names ==> (n in a <==> n in b) && (n in a ==> a[n] == b[n])
  }
}

=== FILE: properties.dfy ===
/** Properties of the store relating several calls: idempotent key retrieval,
    the put/get round trip, removal, error-to-null at the boundary, and the
    consequences of sharing one namespace between the key and caller data. */
module EncryptedPrefsProperties {
  import opened Wrappers
  import opened Crypto
  import opened Prefs
  import opened EncryptedPrefs
  import opened Calls

  /** A second `getKey` returns the same key as a successful first one, writes
      nothing, and never consults the generator. */
  lemma GetKeyIdempotent(st: Store, lib: Library, draw1: Option<GeneratedKey>, draw2: Option<GeneratedKey>)
    requires Lawful(lib)
    ensures var first := GetKey(st, lib, draw1);
            first.out.Ok? ==> GetKey(first.state, lib, draw2) == Step(first.state, first.out)
  {
  }

  /** Key persistence: once a `getKey` has succeeded, any calls that do not
      name the key slot (puts, gets and removals of other names, in any
      order) leave a key that the next `getKey` returns unchanged, whatever
      the generator would produce. */
  lemma KeyPersists(st: Store, lib: Library, draw1: Option<GeneratedKey>, draw2: Option<GeneratedKey>,
                    calls: seq<Call>)
    requires Lawful(lib)
    requires GetKey(st, lib, draw1).out.Ok?
    requires forall i :: 0 <= i < |calls| ==> calls[i].name != PrivateKeyName
    ensures var st' := Run(GetKey(st, lib, draw1).state, lib, calls);
            && PrivateKeyName in st'
            && GetKey(st', lib, draw2) == Step(st', GetKey(st, lib, draw1).out)
  {
    var first := GetKey(st, lib, draw1);
    GetKeyIdempotent(st, lib, draw1, draw2);
    EntrySurvivesOtherCalls(first.state, lib, PrivateKeyName, calls);
    var st' := Run(first.state, lib, calls);
    assert st'[PrivateKeyName] == first.state[PrivateKeyName];
  }

  /** `getKey` writes to the store if and only if the slot is empty and a key
      can be generated. */
  lemma KeyCreatedOnlyWhenSlotEmpty(st: Store, lib: Library, draw: Option<GeneratedKey>)
    ensures GetKey(st, lib, draw).state != st <==> PrivateKeyName !in st && draw.Some?
  {
  }

  /** Encryption cannot fail once a 128-bit key has been obtained. */
  lemma EncryptSucceedsWithKey(st: Store, lib: Library, draw: Option<GeneratedKey>, clear: string)
    requires Lawful(lib)
    requires GetKey(st, lib, draw).out.Ok? && |GetKey(st, lib, draw).out.value| == KeyLength
    ensures Encrypt(st, lib, draw, clear).out.Ok?
  {
  }

  /** On a store without a key, the first `putString` succeeds whenever a key
      can be generated. */
  lemma FirstPutSucceeds(st: Store, lib: Library, key: GeneratedKey, clear: string)
    requires Lawful(lib)
    requires PrivateKeyName !in st
    ensures Encrypt(st, lib, Some(key), clear).out.Ok?
  {
  }

  /** `getString` after a successful `putString` of `value` under a name other
      than the key slot returns `value` and writes nothing. */
  lemma PutGetRoundTrip(st: Store, lib: Library, draw1: Option<GeneratedKey>, draw2: Option<GeneratedKey>,
                        name: string, value: string)
    requires Lawful(lib)
    requires name != PrivateKeyName
    requires Encrypt(st, lib, draw1, value).out.Ok?
    ensures var st1 := PutString(st, lib, draw1, name, value);
            GetString(st1, lib, draw2, name) == Step(st1, Some(value))
  {
  }

  /** An entry that is not a string, or not Base64, reads as null, and the
      read changes nothing: in particular no key is created for it. */
  lemma CorruptEntryReadsAsNull(st: Store, lib: Library, draw: Option<GeneratedKey>, name: string)
    requires name in st
    requires st[name].IntPref? || lib.base64Decode(st[name].s).None?
    ensures GetString(st, lib, draw, name) == Step(st, None)
  {
  }

  /** An entry that decodes but was not written under the stored key reads as
      null: the decryption failure does not escape `getString`. */
  lemma UndecryptableEntryReadsAsNull(st: Store, lib: Library, draw: Option<GeneratedKey>, name: string)
    requires name in st && st[name].StringPref?
    requires lib.base64Decode(st[name].s).Some?
    requires GetKey(st, lib, draw).out.Err? ||
             lib.aesDecrypt(GetKey(st, lib, draw).out.value, lib.base64Decode(st[name].s).value).None?
    ensures GetString(st, lib, draw, name).out == None
  {
  }

  /** Reading an existing entry from a store whose key slot is empty creates
      the key (and UserAge) as a side effect, even though the value read was
      not written under that key. */
  lemma ReadCreatesMissingKey(st: Store, lib: Library, key: GeneratedKey, name: string)
    requires name in st && st[name].StringPref?
    requires lib.base64Decode(st[name].s).Some?
    requires PrivateKeyName !in st
    ensures var r := GetString(st, lib, Some(key), name);
            && r.state[PrivateKeyName] == StringPref(lib.base64Encode(key))
            && r.state[UserAgeName] == IntPref(UserAgeValue)
            && AgreeExcept(st, r.state, {PrivateKeyName, UserAgeName})
  {
  }

  /** After `removeString(name)`, `getString(name)` is null and writes nothing. */
  lemma GetAfterRemove(st: Store, lib: Library, draw: Option<GeneratedKey>, name: string)
    ensures var st1 := RemoveString(st, name);
            GetString(st1, lib, draw, name) == Step(st1, None)
  {
  }

  /** The shared namespace: a successful `putString("PRIVATE_KEY", v)` replaces
      the key with the ciphertext of `v`, which every later call then uses as
      the key (or fails on, when the ciphertext is empty). */
  lemma ReservedPutReplacesKey(st: Store, lib: Library, draw1: Option<GeneratedKey>, draw2: Option<GeneratedKey>,
                               value: string)
    requires Lawful(lib)
    requires Encrypt(st, lib, draw1, value).out.Ok?
    ensures var ct := Encrypt(st, lib, draw1, value).out.value;
            GetKey(PutString(st, lib, draw1, PrivateKeyName, value), lib, draw2).out ==
              (if |ct| > 0 then Ok(ct) else Err(EmptyKey))
  {
  }

  /** The shared namespace: `removeString("PRIVATE_KEY")` deletes the key, so
      the next key-requiring call generates and stores a fresh one. */
  lemma ReservedRemoveDropsKey(st: Store, lib: Library, key: GeneratedKey)
    ensures var st1 := RemoveString(st, PrivateKeyName);
            && PrivateKeyName !in st1
            && GetKey(st1, lib, Some(key)).out == Ok(key)
  {
  }

  function Apply(st: Store, lib: Library, c: Call): Store {
    match c
    case Put(n, v, d) => PutString(st, lib, d, n, v)
    case Get(n, d) => GetString(st, lib, d, n).state
    case Remove(n) => RemoveString(st, n)
  }

  function Run(st: Store, lib: Library, calls: seq<Call>): Store
    decreases |calls|
  {
    if |calls| == 0 then st else Run(Apply(st, lib, calls[0]), lib, calls[1..])
  }

  /** Once a key is stored, calls that name neither the key slot nor `name`
      leave both entries exactly as they were. */
  lemma {:induction false} EntrySurvivesOtherCalls(st: Store, lib: Library, name: string, calls: seq<Call>)
    requires PrivateKeyName in st
    requires forall i :: 0 <= i < |calls| ==> calls[i].name != name && calls[i].name != PrivateKeyName
    ensures var st' := Run(st, lib, calls);
            && PrivateKeyName in st' && st'[PrivateKeyName] == st[PrivateKeyName]
            && (name in st' <==> name in st)
            && (name in st ==> st'[name] == st[name])
    decreases |calls|
  {
    if |calls| > 0 {
      var st1 := Apply(st, lib, calls[0]);
      assert PrivateKeyName in st1 && st1[PrivateKeyName] == st[PrivateKeyName];
      assert (name in st1 <==> name in st) && (name in st ==> st1[name] == st[name]);
      assert forall i :: 0 <= i < |calls[1..]| ==> calls[1..][i] == calls[i + 1];
      EntrySurvivesOtherCalls(st1, lib, name, calls[1..]);
    }
  }

  /** `getString` reads only the named entry and the key slot once a key exists. */
  lemma GetStringIsLocal(a: Store, b: Store, lib: Library, draw: Option<GeneratedKey>, name: string)
    requires PrivateKeyName in a && PrivateKeyName in b && a[PrivateKeyName] == b[PrivateKeyName]
    requires (name in a <==> name in b) && (name in a ==> a[name] == b[name])
    ensures GetString(a, lib, draw, name).out == GetString(b, lib, draw, name).out
  {
  }

  /** Key persistence across calls: a value put under `name` is still read back
      after any calls that touch neither `name` nor the key slot, including
      puts and removals of other names. */
  lemma RoundTripSurvivesOtherCalls(st: Store, lib: Library, draw1: Option<GeneratedKey>, draw2: Option<GeneratedKey>,
                                    name: string, value: string, calls: seq<Call>)
    requires Lawful(lib)
    requires name != PrivateKeyName
    requires Encrypt(st, lib, draw1, value).out.Ok?
    requires forall i :: 0 <= i < |calls| ==> calls[i].name != name && calls[i].name != PrivateKeyName
    ensures GetString(Run(PutString(st, lib, draw1, name, value), lib, calls), lib, draw2, name).out == Some(value)
  {
    var st1 := PutString(st, lib, draw1, name, value);
    PutGetRoundTrip(st, lib, draw1, draw2, name, value);
    assert PrivateKeyName in st1 && name in st1;
    EntrySurvivesOtherCalls(st1, lib, name, calls);
    GetStringIsLocal(Run(st1, lib, calls), st1, lib, draw2, name);
  }

  /** On an empty store: `putString("token", "abc123")` then `getString("token")`
      returns "abc123"; after `removeString("token")` it returns null. */
  lemma TokenScenario(lib: Library, key: GeneratedKey)
    requires Lawful(lib)
    ensures var st1 := PutString(map[], lib, Some(key), "token", "abc123");
            && GetString(st1, lib, None, "token").out == Some("abc123")
            && GetString(RemoveString(st1, "token"), lib, None, "token").out == None
  {
  }
}

=== FILE: separated_prefs.dfy ===
/** The store with the key kept apart from caller data: the same operations
    as `EncryptedPrefs`, over a `Vault` whose key slot is a field of its own
    instead of an entry callers can name, and whose key creation writes no
    other entry. Every caller name, "PRIVATE_KEY" and "UserAge" included, is
    then an ordinary name. */
module SeparatedPrefs {
  import opened Wrappers
  import opened Crypto
  import opened Prefs
  import opened CipherCodec
  import opened Calls

  datatype Vault = Vault(keySlot: Option<string>, data: Store)

  /** Key retrieval: reads the key field, or generates and stores a key there. */
  function VaultGetKey(v: Vault, lib: Library, draw: Option<GeneratedKey>): (r: Step<Vault, Result<Bytes, Failure>>)
    ensures r.state.data == v.data
    ensures v.keySlot.Some? ==> r.state == v && r.out == DecodeKey(lib, v.keySlot.value)
    ensures v.keySlot.None? && draw.None? ==> r == Step(v, Err(NoSuchAlgorithm))
    ensures v.keySlot.None? && draw.Some? ==>
              r.state.keySlot == Some(lib.base64Encode(draw.value)) && r.out == Ok(draw.value)
    ensures r.out.Ok? ==> |r.out.value| > 0
  {
    match v.keySlot
    case None =>
      (match draw
       case None => Step(v, Err(NoSuchAlgorithm))
       case Some(key) => Step(v.(keySlot := Some(lib.base64Encode(key))), Ok(key)))
    case Some(text) => Step(v, DecodeKey(lib, text))
  }

  function VaultEncrypt(v: Vault, lib: Library, draw: Option<GeneratedKey>, clear: string): (r: Step<Vault, Result<Bytes, Failure>>)
    ensures r.state == VaultGetKey(v, lib, draw).state
    ensures r.out.Ok? <==>
              VaultGetKey(v, lib, draw).out.Ok? &&
              lib.aesEncrypt(VaultGetKey(v, lib, draw).out.value, lib.utf8Encode(clear)).Some?
    ensures r.out.Ok? ==>
              lib.aesEncrypt(VaultGetKey(v, lib, draw).out.value, lib.utf8Encode(clear)) == Some(r.out.value)
  {
    var k := VaultGetKey(v, lib, draw);
    match k.out
    case Err(e) => Step(k.state, Err(e))
    case Ok(key) => Step(k.state, EncryptWith(lib, key, clear))
  }

  /** Writing a caller entry never touches the key field once it is set. */
  function VaultPutString(v: Vault, lib: Library, draw: Option<GeneratedKey>, name: string, value: string): (r: Vault)
    ensures r.keySlot == VaultGetKey(v, lib, draw).state.keySlot
    ensures v.keySlot.Some? ==> r.keySlot == v.keySlot
    ensures AgreeExcept(v.data, r.data, {name})
    ensures VaultEncrypt(v, lib, draw, value).out.Ok? ==>
              name in r.data &&
              r.data[name] == StringPref(lib.base64Encode(VaultEncrypt(v, lib, draw, value).out.value))
    ensures VaultEncrypt(v, lib, draw, value).out.Err? ==> r.data == v.data
  {
    var e := VaultEncrypt(v, lib, draw, value);
    match e.out
    case Err(_) => e.state
    case Ok(ct) => e.state.(data := e.state.data[name := StringPref(lib.base64Encode(ct))])
  }

  function VaultGetString(v: Vault, lib: Library, draw: Option<GeneratedKey>, name: string): (r: Step<Vault, Option<string>>)
    ensures r.state.data == v.data
    ensures name !in v.data ==> r == Step(v, None)
    ensures v.keySlot.Some? ==> r.state == v
    // a value comes back exactly when the entry is a string, is Base64, and decrypts
    ensures r.out.Some? <==>
              && name in v.data && v.data[name].StringPref?
              && lib.base64Decode(v.data[name].s).Some?
              && VaultGetKey(v, lib, draw).out.Ok?
              && DecryptWith(lib, VaultGetKey(v, lib, draw).out.value, lib.base64Decode(v.data[name].s).value).Ok?
    ensures r.out.Some? ==>
              r.out.value ==
                DecryptWith(lib, VaultGetKey(v, lib, draw).out.value, lib.base64Decode(v.data[name].s).value).value
  {
    match ReadString(v.data, name)
    case Err(_) => Step(v, None)
    case Ok(None) => Step(v, None)
    case Ok(Some(text)) =>
      (match lib.base64Decode(text)
       case None => Step(v, None)
       case Some(ct) =>
         var k := VaultGetKey(v, lib, draw);
         match k.out
         case Err(_) => Step(k.state, None)
         case Ok(key) => Step(k.state, DecryptWith(lib, key, ct).ToOption()))
  }

  /** Removing a caller entry never touches the key field. */
  function VaultRemoveString(v: Vault, name: string): (r: Vault)
    ensures r.keySlot == v.keySlot
    ensures r.data.Keys == v.data.Keys - {name}
    ensures forall n :: n in r.data ==> r.data[n] == v.data[n]
  {
    v.(data := v.data - {name})
  }

  /** The round trip holds for every name. */
  lemma VaultPutGetRoundTrip(v: Vault, lib: Library, draw1: Option<GeneratedKey>, draw2: Option<GeneratedKey>,
                             name: string, value: string)
    requires Lawful(lib)
    requires VaultEncrypt(v, lib, draw1, value).out.Ok?
    ensures var v1 := VaultPutString(v, lib, draw1, name, value);
            VaultGetString(v1, lib, draw2, name) == Step(v1, Some(value))
  {
  }

  function VaultApply(v: Vault, lib: Library, c: Call): Vault {
    match c
    case Put(n, x, d) => VaultPutString(v, lib, d, n, x)
    case Get(n, d) => VaultGetString(v, lib, d, n).state
    case Remove(n) => VaultRemoveString(v, n)
  }

  function VaultRun(v: Vault, lib: Library, calls: seq<Call>): Vault
    decreases |calls|
  {
    if |calls| == 0 then v else VaultRun(VaultApply(v, lib, calls[0]), lib, calls[1..])
  }

  /** Once a key is stored, no sequence of caller calls, on any names, changes it. */
  lemma {:induction false} VaultKeyNeverClobbered(v: Vault, lib: Library, calls: seq<Call>)
    requires v.keySlot.Some?
    ensures VaultRun(v, lib, calls).keySlot == v.keySlot
    decreases |calls|
  {
    if |calls| > 0 {
      VaultKeyNeverClobbered(VaultApply(v, lib, calls[0]), lib, calls[1..]);
    }
  }

  /** Calls on other names leave a caller entry exactly as it was. */
  lemma {:induction false} VaultEntrySurvivesOtherCalls(v: Vault, lib: Library, name: string,
                                                        calls: seq<Call>)
    requires forall i :: 0 <= i < |calls| ==> calls[i].name != name
    ensures (name in VaultRun(v, lib, calls).data <==> name in v.data)
    ensures name in v.data ==> VaultRun(v, lib, calls).data[name] == v.data[name]
    decreases |calls|
  {
    if |calls| > 0 {
      assert forall i :: 0 <= i < |calls[1..]| ==> calls[1..][i] == calls[i + 1];
      VaultEntrySurvivesOtherCalls(VaultApply(v, lib, calls[0]), lib, name, calls[1..]);
    }
  }

  /** A value put under any name is read back after any calls on other names,
      the reserved names of the original store included. */
  lemma VaultRoundTripSurvivesOtherCalls(v: Vault, lib: Library, draw1: Option<GeneratedKey>, draw2: Option<GeneratedKey>,
                                         name: string, value: string, calls: seq<Call>)
    requires Lawful(lib)
    requires VaultEncrypt(v, lib, draw1, value).out.Ok?
    requires forall i :: 0 <= i < |calls| ==> calls[i].name != name
    ensures VaultGetString(VaultRun(VaultPutString(v, lib, draw1, name, value), lib, calls), lib, draw2, name).out
              == Some(value)
  {
    var v1 := VaultPutString(v, lib, draw1, name, value);
    VaultPutGetRoundTrip(v, lib, draw1, draw2, name, value);
    VaultKeyNeverClobbered(v1, lib, calls);
    VaultEntrySurvivesOtherCalls(v1, lib, name, calls);
    var vn := VaultRun(v1, lib, calls);
    assert vn.keySlot == v1.keySlot && vn.data[name] == v1.data[name];
  }
}

=== FILE: toy_crypto.dfy ===
/** A small `Library` that satisfies every law of `Lawful`, so that the
    precondition is not vacuous. It is not a cipher: "encryption" prefixes the
    key, so that decrypting under a different key visibly fails, as a padding
    check would in AES. */
module ToyCrypto {
  import opened Wrappers
  import opened Crypto

  /** One character per byte. */
  function Text(b: Bytes): (s: string)
    ensures |s| == |b|
  {
    if |b| == 0 then [] else [(b[0] as int) as char] + Text(b[1..])
  }

  function Untext(s: string): Option<Bytes> {
    if |s| == 0 then Some([])
    else if (s[0] as int) < 256 then
      match Untext(s[1..])
      case None => None
      case Some(rest) => Some([(s[0] as int) as byte] + rest)
    else None
  }

  /** Three bytes per character: the code point in base 256. */
  function Utf8(s: string): (b: Bytes)
    ensures |b| == 3 * |s|
  {
    if |s| == 0 then [] else Triple(s[0]) + Utf8(s[1..])
  }

  function Triple(c: char): (b: Bytes)
    ensures |b| == 3
  {
    var v := c as int;
    [(v / 65536) as byte, (v % 65536 / 256) as byte, (v % 256) as byte]
  }

  /** The code point a triple spells, or U+FFFD when it is not a scalar value. */
  function Untriple(b0: byte, b1: byte, b2: byte): char {
    var v := (b0 as int) * 65536 + (b1 as int) * 256 + b2 as int;
    if 0 <= v < 0xD800 || 0xE000 <= v < 0x11_0000 then v as char else 0xFFFD as char
  }

  /** Inverse of `Utf8`; a triple that is not a scalar value becomes U+FFFD and
      a trailing partial triple is dropped. */
  function Unutf8(b: Bytes): string
    decreases |b|
  {
    if |b| < 3 then []
    else
      [Untriple(b[0], b[1], b[2])] + Unutf8(b[3..])
  }

  function Seal(key: Bytes, p: Bytes): Option<Bytes> {
    if |key| == 0 then None else Some(key + p)
  }

  function Unseal(key: Bytes, c: Bytes): Option<Bytes> {
    if 0 < |key| <= |c| && c[..|key|] == key then Some(c[|key|..]) else None
  }

  function Toy(): Library {
    Library(Text, Untext, Utf8, Unutf8, Seal, Unseal)
  }

  lemma {:induction false} TextRoundTrip(b: Bytes)
    ensures Untext(Text(b)) == Some(b)
    decreases |b|
  {
    if |b| > 0 {
      TextRoundTrip(b[1..]);
      assert Text(b)[1..] == Text(b[1..]);
      assert [b[0]] + b[1..] == b;
    }
  }

  lemma TripleRoundTrip(c: char)
    ensures var t := Triple(c); Untriple(t[0], t[1], t[2]) == c
  {
  }

  lemma {:induction false} Utf8RoundTrip(s: string)
    ensures Unutf8(Utf8(s)) == s
    decreases |s|
  {
    if |s| > 0 {
      Utf8RoundTrip(s[1..]);
      var e := Utf8(s);
      assert e[3..] == Utf8(s[1..]);
      assert e[..3] == Triple(s[0]);
      TripleRoundTrip(s[0]);
      assert [s[0]] + s[1..] == s;
    }
  }

  lemma ToyIsLawful()
    ensures Lawful(Toy())
  {
    forall b: Bytes ensures Untext(Text(b)) == Some(b) {
      TextRoundTrip(b);
    }
    forall s: string ensures Unutf8(Utf8(s)) == s {
      Utf8RoundTrip(s);
    }
    forall k: Bytes, p: Bytes | Seal(k, p).Some? ensures Unseal(k, Seal(k, p).value) == Some(p) {
      assert (k + p)[..|k|] == k;
      assert (k + p)[|k|..] == p;
    }
  }

  /** Decrypting under a key longer than the ciphertext fails. */
  lemma UnsealRejectsLongerKey(key: Bytes, c: Bytes)
    requires |key| > |c|
    ensures Unseal(key, c).None?
  {
  }
}

=== FILE: wrappers.dfy ===
/** Failure-carrying datatypes shared by the whole model: `Option` stands for a
    Java reference that may be null, `Result` for a call that may throw. */
module Wrappers {

  datatype Option<+T> = None | Some(value: T)

  datatype Result<+R, +E> = Ok(value: R) | Err(error: E) {

    /** Forgets the failure, as a `catch` block that returns null does. */
    function ToOption(): (o: Option<R>)
      ensures o.Some? <==> Ok?
      ensures Ok? ==> o.value == value
    {
      match this
      case Ok(v) => Some(v)
      case Err(_) => None
    }
  }
}
